=== FILE: README.md ===
# Geocoding service: provider normalisation, in Dafny

This project models the decision logic of a small Go geocoding service. The service
answers geocode, reverse-geocode, place-search, distance and route requests. It forwards
each one to a mapping provider chosen at start-up, either Google Maps or HERE Maps. Four
parts are modelled as pure functions over already-decoded data:

- **Adapters** (`GoogleMaps`, `HereMaps`). For each of the five operations, the model
  covers how the upstream exchange becomes a `(status, entity, error)` triple. The
  exchange can end in a transport failure, a body-read failure, a JSON decode failure or
  a decoded record. An absent entity or error is `None`, as nil is in Go.
- **Provider selection** (`Repository`). The configured provider name picks one adapter,
  or selection fails with a configuration error.
- **Controllers** (`Controllers`). Each HTTP handler is split in two. A validation
  cascade (`…Step`) either answers at once or produces the adapter's arguments. Then
  `Finish` maps the adapter's answer to an HTTP code and a JSON reply.
- **Shared pieces** (`Adapter`, `Text`, `Entity`, `Responses`). These hold the fetch and
  outcome types and the polyline hand-off. They also model Go's `strings.TrimSpace` and
  `strings.Split(s, ",")[0]`, the domain records, and the status and message constants.

`Adapter.Normalize` is a reference status policy defined in this project. It never
passes a provider status word on and uses only the closed status vocabulary. Its
precedence is fixed: transport or parse failure gives FAILED, an empty result list gives
ZERO_RESULTS with the provider's description or a fallback text, and anything else gives
OK. It has no case for an access or quota denial. The `Conformance` lemmas compare each
adapter with it:

- HERE matches it on every status except a route whose polyline the decoder rejects.
  There HERE gives FAILED where the policy gives OK.
- Both adapters drop the read and decode error texts.
- Google geocode on a decoded response matches exactly when the provider's own status word
  is the canonical one.
- Google reverse geocode and search report any non-empty list as OK. On a decoded response
  they match except on an empty list whose status word is not ZERO_RESULTS.
- Google route never reads the status word. It matches except when the decoder rejects
  the polyline.
- Google distance reads the status word only when the row list is empty. It matches
  exactly when empty rows carry ZERO_RESULTS, or when the first element of a non-empty row
  list has a status other than ZERO_RESULTS.
- Transport failures match in every operation of both adapters.

`EndToEnd` composes handlers with adapters to show what a client actually receives.

Behaviour kept exactly as the code has it, although it looks unintended:

- After a failed body read or JSON decode, the adapters return the transport error
  variable, which is nil at that point. The controller therefore answers such a failure
  with HTTP 200 and "request sent successfully" (`EndToEnd.HereSwallowedErrorLooksSuccessful`).
- On a decode failure, Google geocode, reverse geocode and search return the status that
  the partial decode left behind, not FAILED.
- Google passes its raw status word on, for example `REQUEST_DENIED`, so statuses outside
  the constants of `responses/responses.go` reach the client.
- `INVALID_DATA` has the value `"IVALID_DATA"`.
- The adapters build places with `Name`, `Address` and `Location`, and use `Summary` and
  `Route` records. `entity/location.go` declares none of these except `Address`, and that
  with an `Address` field only. The model uses the records the adapters construct. The
  `Repository` interface in `repository/repository.go` also lists different result types
  and has no `Distance` or `Route`. The model follows the adapters and the controllers.

## Model

| member | source | states |
|---|---|---|
| Text.TrimSpace | controllers/maps_controller.go:48-49 | the trimmed address is empty exactly when every character is Unicode white space; otherwise it starts and ends with a non-space |
| Text.TrimSpaceKeepsMiddle | controllers/maps_controller.go:48-49 | the trimmed address is the slice of the input between a leading and a trailing run of white space, so only white space is removed |
| Text.FirstField | repository/googlemaps/googlemaps.go:117 | the name is a comma-free prefix of the formatted address ending at its first comma or at its end, and equals the whole address exactly when it has no comma |
| Text.FirstFieldUnique | repository/googlemaps/googlemaps.go:201 | any comma-free prefix that stops at a comma or at the end is the computed name: the rule has one answer |
| Adapter.MapEach | repository/heremaps/heremaps.go:175-186 | the result has one element per input, the image of the input at the same position |
| Adapter.ToLocations | repository/googlemaps/googlemaps.go:294-299 | the route path has one location per decoded vertex, in decoder order, with coordinates unchanged |
| GoogleMaps.PlaceOf | repository/googlemaps/googlemaps.go:116-120 | a place copies the formatted address and location, and takes the text before the first comma as its name |
| GoogleMaps.Places | repository/googlemaps/googlemaps.go:194-206 | search yields exactly one place per result record, in the same order, each built from its record |
| GoogleMaps.Geocoding | repository/googlemaps/googlemaps.go:93-122 | transport failure gives FAILED with the transport error; read failure gives FAILED with no error; decode failure gives the partial status with no error; a decoded response always yields the provider's status; a place is present exactly when the list is non-empty and is built from the first result; an empty list gives error_message verbatim, or "No results for " + address |
| GoogleMaps.ReverseGeocoding | repository/googlemaps/googlemaps.go:133-161 | as geocode, but success is reported as OK whatever the provider said, and the no-results text names the formatted latlng |
| GoogleMaps.Search | repository/googlemaps/googlemaps.go:172-208 | as geocode, but success is OK and carries one place per result in order; an empty list keeps the provider's status |
| GoogleMaps.Distance | repository/googlemaps/googlemaps.go:222-254 | read and decode failures give FAILED with no error; empty rows give the provider's status with error_message or "Distance for origin or destination invalid"; a first element with status ZERO_RESULTS gives ZERO_RESULTS and "failed to calculate distance"; any other first element gives OK with its duration and distance and no error |
| GoogleMaps.Route | repository/googlemaps/googlemaps.go:268-311 | no routes gives ZERO_RESULTS with "Route for origin or destination invalid"; a rejected polyline gives FAILED with the decoder's error; a decoded polyline gives OK with a route whose summary holds the first leg's duration and distance, and a path of the same length and order as the decoded points |
| HereMaps.PlaceOf | repository/heremaps/heremaps.go:91-95 | a place takes the item's title as its name, the address label as its address, and the position unchanged |
| HereMaps.Places | repository/heremaps/heremaps.go:174-186 | search yields exactly one place per item, in the same order, each built field by field from its item |
| HereMaps.Lookup | repository/heremaps/heremaps.go:69-97 | transport failure gives FAILED with the transport error; read and decode failures give FAILED with no error; an empty list is always ZERO_RESULTS with error_description verbatim or "No results for " + input; a non-empty list gives OK with the place built from the first item, and OK holds only then |
| HereMaps.Geocoding | repository/heremaps/heremaps.go:62-98 | OK exactly when the item list is non-empty; an empty list without a description names the address in the error |
| HereMaps.ReverseGeocoding | repository/heremaps/heremaps.go:100-139 | OK exactly when the item list is non-empty; an empty list without a description names the formatted latlng in the error |
| HereMaps.Search | repository/heremaps/heremaps.go:151-188 | failures and empty lists are classified as in the lookups; a non-empty list gives OK with one place per item in order, and OK holds only then |
| HereMaps.Distance | repository/heremaps/heremaps.go:203-232 | no routes gives ZERO_RESULTS with error_description or "Distance for origin or destination invalid"; a non-empty route list gives OK with the first section's duration and length, and OK holds only then |
| HereMaps.Route | repository/heremaps/heremaps.go:245-292 | no routes gives ZERO_RESULTS with error_description or "Route for origin or destination invalid"; a rejected polyline gives FAILED with the decoder's error; a decoded polyline gives OK with the first section's summary and the decoded points in order |
| Repository.Provider | repository/heremaps/heremaps.go:58-60 | the display names are "GOOGLE MAPS" and "HERE MAPS", and each identifies its adapter |
| Repository.New | repository/repository.go:18-33 | exactly one of adapter and error is present; "google_maps" selects Google and "here_maps" selects HERE, each built with the configured key; any other name gives "invalid engine " + name |
| Repository.SelectionDependsOnlyOnProvider | repository/repository.go:23-27 | two configurations with the same provider name select the same adapter kind or the same error; the key only travels along |
| Repository.ErrorNamesProvider | repository/repository.go:28-29 | a selection error happens only for an unrecognised name, and that name can be read back from the message |
| Controllers.Finish | controllers/maps_controller.go:54-64 | an adapter error gives 400 with the error text and no data; no error gives 200 with "request sent successfully" and the entity; the status is passed on unchanged |
| Controllers.Handle | controllers/maps_controller.go:86-96 | a validation reply is final and the adapter is not consulted; otherwise the reply is the adapter's answer for the validated arguments, mapped by `Finish` |
| Controllers.Geocoding | controllers/maps_controller.go:31-68 | a valid body gets the reply mapped from the adapter's answer for its address; any other body gets 400, FAILED or MISSING_PARAMS, and no data |
| Controllers.ReverseGeocoding | controllers/maps_controller.go:70-98 | a decoded location gets the reply mapped from the adapter's answer for that location; an undecodable body gets 400, FAILED, "invalid format json" |
| Controllers.Search | controllers/maps_controller.go:100-154 | a valid body gets the reply mapped from the adapter's answer for the address and parsed coordinates; any other body gets 400, FAILED, MISSING_PARAMS or IVALID_DATA, and no data |
| Controllers.Route | controllers/maps_controller.go:156-193 | a body with origin and destination gets the reply mapped from the adapter's answer for them; any other body gets 400, FAILED or MISSING_PARAMS, and no data |
| Controllers.GeocodingStep | controllers/maps_controller.go:37-53 | the adapter is called exactly when the body decodes and has an address that is not all white space, and it gets that address; otherwise a decode failure, a missing address or a blank address each get their own 400 reply |
| Controllers.ReverseGeocodingStep | controllers/maps_controller.go:76-86 | only a decode failure stops the call; any decoded location goes to the adapter unchanged |
| Controllers.SearchStep | controllers/maps_controller.go:106-137 | the adapter is called exactly when all three keys are present, both coordinates parse and the address is not blank; checks run in the order decode, presence, 'lat', 'lng', blank address, with "IVALID_DATA" for the coordinate failures |
| Controllers.RouteStep | controllers/maps_controller.go:161-179 | the adapter is called exactly when the body decodes with both origin and destination, and it gets them unchanged; otherwise FAILED or MISSING_PARAMS |
| Conformance.HereLookupConforms | repository/heremaps/heremaps.go:69-97 | HERE geocode and reverse geocode always give the normaliser's status; the error agrees except on read or decode failure, where the adapter drops it |
| Conformance.HereSearchConforms | repository/heremaps/heremaps.go:151-188 | the same agreement for HERE search |
| Conformance.HereDistanceConforms | repository/heremaps/heremaps.go:203-232 | the same agreement for HERE distance |
| Conformance.HereRouteConforms | repository/heremaps/heremaps.go:245-292 | HERE route agrees with the normaliser except when the polyline is rejected, which turns its OK into FAILED |
| Conformance.HereStaysInVocabulary | repository/heremaps/heremaps.go:62-293 | every HERE status is one of the closed status constants |
| Conformance.GoogleGeocodingConformsIffCanonical | repository/googlemaps/googlemaps.go:110-121 | on a decoded response, Google geocode gives the normaliser's status exactly when the provider's status is ZERO_RESULTS for an empty list or OK for a non-empty one; the error always agrees |
| Conformance.GoogleListLookupsConformIffFoundOrZero | repository/googlemaps/googlemaps.go:149-160 | Google reverse geocode and search differ from the normaliser exactly on an empty list whose provider status is not ZERO_RESULTS |
| Conformance.GoogleParseFailureStatus | repository/googlemaps/googlemaps.go:105-109 | after a decode failure Google reports FAILED only when the partial status happens to be FAILED, where the normaliser always says FAILED |
| Conformance.GoogleLeaksProviderStatus | repository/googlemaps/googlemaps.go:110-112 | for every address and message, a REQUEST_DENIED response reaches the caller with that status, which lies outside the closed vocabulary, and with Google's message, or the no-results text when the message is empty |
| Conformance.GoogleRouteConforms | repository/googlemaps/googlemaps.go:281-311 | Google route agrees with the normaliser whenever the polyline decodes; a rejected polyline turns OK into FAILED |
| Conformance.GoogleDistanceConformsIffCanonical | repository/googlemaps/googlemaps.go:238-254 | Google distance on a decoded response agrees with the normaliser on status: if the rows are empty, exactly when the provider's status is ZERO_RESULTS; otherwise exactly when the first element's status is not ZERO_RESULTS |
| Conformance.GoogleTransportFailureConforms | repository/googlemaps/googlemaps.go:94-96 | a failed request gives FAILED with the transport error, as the normaliser does, in geocode here and in the same branch of the other four operations (lines 134, 173, 223 and 269) |
| EndToEnd.RejectedRequestsIgnoreAdapter | controllers/maps_controller.go:39-53 | when validation answers, geocode, search and route replies do not depend on the adapter: it is not called |
| EndToEnd.HereSwallowedErrorLooksSuccessful | repository/heremaps/heremaps.go:75-83 | a HERE read or decode failure reaches the client as 200, FAILED, "request sent successfully", no data |
| EndToEnd.GoogleParseFailureLooksSuccessful | repository/googlemaps/googlemaps.go:184-187 | a Google search decode failure reaches the client as 200 with the partial status and no data |
| EndToEnd.HereGeocodingReplies | controllers/maps_controller.go:31-68 | behind HERE every geocoding reply status is in the closed vocabulary, data is present exactly with OK, and a 200 without data is always FAILED |
| EndToEnd.GoogleDeniedReachesClient | repository/googlemaps/googlemaps.go:110-112 | for any non-blank query and non-empty message, a denied Google key reaches the client as 400 with Google's REQUEST_DENIED and that message verbatim, a status outside the closed vocabulary |
| EndToEnd.GoogleGeocodingOneResult | repository/googlemaps/googlemaps.go:116-121 | one Google result with status OK gives 200 and a place named after the text before the first comma |
| EndToEnd.UnknownProviderRejected | repository/repository.go:28-29 | the provider name "unknown_provider" gives no repository and the error "invalid engine unknown_provider" |

## Left out

- HTTP GETs, query encoding, reading the body and `json.Unmarshal` are left out. Their
  result is the `Adapter.Fetched` input, with the error texts that Go produces.
- The `%f,%f` rendering of coordinates is left out. Reverse geocoding takes it as the
  `latlng` string.
- Polyline decoding (`go-polyline` for Google, `flexpolyline` for HERE) is library code
  and is left out. Each route operation takes the decoder as a parameter
  `string -> Decoding`, so no codec round trip is stated. A possible third dimension of
  HERE points is not modelled.
- Floating point is left out. Coordinates, durations and distances are reals copied
  verbatim. `strconv.ParseFloat` is a parameter of `Controllers.SearchStep`, and
  `fmt.Sprint` of JSON values is assumed already applied (`Controllers.Fields`).
- A JSON null value and a missing key both read as nil in the handlers, so both are
  absent from the decoded body maps.
- Go renders an empty route path as null, not []. The model uses the empty sequence for
  both.
- Go panics on an index out of range at `Elements[0]`, `Legs[0]` and `Sections[0]`. These
  cases become the preconditions `GoogleMaps.DistanceIndexable`,
  `GoogleMaps.RouteIndexable` and `HereMaps.SectionIndexable`.
- `main.go` (server lifecycle), `configuration/configuration.go` (YAML loading) and
  `routes/maps.go` (router registration) are plumbing and are left out. The router also
  names a `Distance` handler that the controllers do not define, so no distance handler
  is modelled.
- The adapters keep no state, so concurrency is not modelled.
- The handlers write replies through `http.ResponseWriter`. `Controllers.Reply` records
  the HTTP code and the JSON fields instead.

=== FILE: adapter.dfy ===
/** What every provider adapter shares: the shape of the upstream exchange it classifies,
    the (status, entity, error) triple it returns, the polyline hand-off, and a reference
    status policy against which both adapters are compared. */
module Adapter {
  import opened Wrappers
  import opened Responses
  import Entity

  /** How far one upstream call got. The GET, the body read and the JSON decode happen
      outside the model; this is their outcome. A failed decode may still have filled in
      part of the record (`partial`), as Go's `json.Unmarshal` does on a type mismatch. */
  datatype Fetched<T> =
    | TransportFailed(err: string)
    | ReadFailed(readErr: string)
    | Malformed(partial: T, parseErr: string)
    | Received(body: T)

  /** An adapter's answer: the status word, the entity (nil in Go when absent) and the
      error (nil in Go when absent). */
  datatype Outcome<T> = Outcome(status: string, value: Option<T>, error: Option<string>)

  /** A decoded polyline vertex, latitude first. */
  type Point = (real, real)

  /** The result of a polyline decoder: the vertices in order, or the decoder's error. */
  datatype Decoding = Decoded(points: seq<Point>) | Undecodable(err: string)

  /** The provider's own description when it sent one, otherwise the adapter's text. */
  function Describe(description: string, fallback: string): (text: string) {
    if description != "" then description else fallback
  }

  /** The source's `for … range … append` loops: one output per input, in input order. */
  function MapEach<T, U>(f: T -> U, xs: seq<T>): (ys: seq<U>)
    ensures |ys| == |xs|
    ensures forall i :: 0 <= i < |xs| ==> ys[i] == f(xs[i])
  {
    if |xs| == 0 then [] else [f(xs[0])] + MapEach(f, xs[1..])
  }

  /** One location per decoded vertex, in the decoder's order, coordinates unchanged. */
  function ToLocations(points: seq<Point>): (path: seq<Entity.Location>)
    ensures |path| == |points|
    ensures forall i :: 0 <= i < |points| ==> path[i] == Entity.Location(points[i].0, points[i].1)
  {
    MapEach((p: Point) => Entity.Location(p.0, p.1), points)
  }

  // ---------------------------------------------------------------------------
  // A reference status policy: the precedence of failure, emptiness and success that an
  // adapter hiding provider status words would follow. It has no access-denied case.

  /** The raw signal an upstream call produces, in order of precedence. */
  datatype Signal =
    | TransportError(err: string)
    | ReadError(err: string)
    | ParseError(err: string)
    | NoResults(description: string)
    | Results

  /** The signal of a fetch whose body holds `count` results and the provider's description. */
  function SignalOf<T>(f: Fetched<T>, count: T -> nat, description: T -> string): (signal: Signal) {
    match f
    case TransportFailed(e) => TransportError(e)
    case ReadFailed(e) => ReadError(e)
    case Malformed(_, e) => ParseError(e)
    case Received(b) => if count(b) == 0 then NoResults(description(b)) else Results
  }

  datatype Verdict = Verdict(status: string, error: Option<string>)

  /** Transport and parse failures are FAILED with their error, an empty result set is
      ZERO_RESULTS with the provider's description (or `fallback`), anything else is OK. */
  function Normalize(signal: Signal, fallback: string): (v: Verdict)
    ensures IsStatus(v.status)
    ensures v.status == OK <==> signal.Results?
    ensures v.status == OK <==> v.error.None?
    ensures v.status == ZERO_RESULTS <==> signal.NoResults?
  {
    match signal
    case TransportError(e) => Verdict(FAILED, Some(e))
    case ReadError(e) => Verdict(FAILED, Some(e))
    case ParseError(e) => Verdict(FAILED, Some(e))
    case NoResults(d) => Verdict(ZERO_RESULTS, Some(Describe(d, fallback)))
    case Results => Verdict(OK, None)
  }
}

=== FILE: conformance.dfy ===
/** How each adapter's (status, error) compares with the reference policy `Normalize`. The
    HERE adapter agrees on every status except a route whose polyline the decoder rejects;
    both adapters drop the read and decode errors. For Google geocode on a decoded response,
    the statuses agree exactly when the provider's own status word is the canonical one;
    Google reverse geocode and search report any non-empty list as OK, so on a decoded
    response they agree except on an empty list whose status word is not ZERO_RESULTS; Google
    route never reads that word and agrees except when the
    decoder rejects the polyline; Google distance reads it only when the row list is empty,
    and otherwise disagrees only when the first element's own status is ZERO_RESULTS.
    Transport failures agree in every operation of both adapters. */
module Conformance {
  import opened Wrappers
  import opened Responses
  import opened Adapter
  import GoogleMaps
  import HereMaps

  function ItemsSignal(f: Fetched<HereMaps.Items>): (signal: Signal) {
    SignalOf(f, (b: HereMaps.Items) => |b.items|, (b: HereMaps.Items) => b.errorDescription)
  }

  function RoutesSignal(f: Fetched<HereMaps.Response>): (signal: Signal) {
    SignalOf(f, (b: HereMaps.Response) => |b.routes|, (b: HereMaps.Response) => b.errorDescription)
  }

  function ResultsSignal(f: Fetched<GoogleMaps.Results>): (signal: Signal) {
    SignalOf(f, (b: GoogleMaps.Results) => |b.results|, (b: GoogleMaps.Results) => b.errorMessage)
  }

  /** The adapter's error matches the normaliser's, except that a failed read or decode
      loses its error: the adapter returns none where the normaliser has one. */
  predicate ErrorsAgreeExceptSwallowed<T, U>(f: Fetched<T>, o: Outcome<U>, v: Verdict) {
    && (f.ReadFailed? || f.Malformed? ==> o.error.None? && v.error.Some?)
    && (!f.ReadFailed? && !f.Malformed? ==> o.error == v.error)
  }

  /** HERE geocode and reverse geocode: the status is always the normaliser's. */
  lemma HereLookupConforms(input: string, f: Fetched<HereMaps.Items>)
    ensures HereMaps.Lookup(input, f).status == Normalize(ItemsSignal(f), "No results for " + input).status
    ensures ErrorsAgreeExceptSwallowed(f, HereMaps.Lookup(input, f), Normalize(ItemsSignal(f), "No results for " + input))
  {
  }

  lemma HereSearchConforms(address: string, f: Fetched<HereMaps.Items>)
    ensures HereMaps.Search(address, f).status == Normalize(ItemsSignal(f), "No results for " + address).status
    ensures ErrorsAgreeExceptSwallowed(f, HereMaps.Search(address, f), Normalize(ItemsSignal(f), "No results for " + address))
  {
  }

  lemma HereDistanceConforms(f: Fetched<HereMaps.Response>)
    requires HereMaps.SectionIndexable(f)
    ensures HereMaps.Distance(f).status ==
            Normalize(RoutesSignal(f), "Distance for origin or destination invalid").status
    ensures ErrorsAgreeExceptSwallowed(f, HereMaps.Distance(f),
                                       Normalize(RoutesSignal(f), "Distance for origin or destination invalid"))
  {
  }

  /** HERE route: the normaliser's status, except that a polyline the decoder rejects turns
      what would be OK into FAILED. */
  lemma HereRouteConforms(f: Fetched<HereMaps.Response>, decode: string -> Decoding)
    requires HereMaps.SectionIndexable(f)
    ensures var undecodable := f.Received? && |f.body.routes| > 0 &&
                               decode(f.body.routes[0].sections[0].polyline).Undecodable?;
            var v := Normalize(RoutesSignal(f), "Route for origin or destination invalid");
            && (undecodable ==> v.status == OK && HereMaps.Route(f, decode).status == FAILED)
            && (!undecodable ==> HereMaps.Route(f, decode).status == v.status &&
                                 ErrorsAgreeExceptSwallowed(f, HereMaps.Route(f, decode), v))
  {
  }

  /** Every HERE answer uses the closed status vocabulary, and carries an entity exactly when
      it is OK. */
  lemma HereStaysInVocabulary(input: string, f: Fetched<HereMaps.Items>, g: Fetched<HereMaps.Response>,
                              decode: string -> Decoding)
    requires HereMaps.SectionIndexable(g)
    ensures IsStatus(HereMaps.Geocoding(input, f).status)
    ensures IsStatus(HereMaps.ReverseGeocoding(input, f).status)
    ensures IsStatus(HereMaps.Search(input, f).status)
    ensures IsStatus(HereMaps.Distance(g).status)
    ensures IsStatus(HereMaps.Route(g, decode).status)
  {
    HereLookupConforms(input, f);
    HereSearchConforms(input, f);
    HereDistanceConforms(g);
    HereRouteConforms(g, decode);
  }

  /** The status the normaliser would give a decoded Google result list. */
  function CanonicalStatus(b: GoogleMaps.Results): (status: string) {
    if |b.results| == 0 then ZERO_RESULTS else OK
  }

  /** Google geocode on a decoded response agrees with the normaliser on status exactly when
      the provider's own status word is the canonical one; the error always agrees. */
  lemma GoogleGeocodingConformsIffCanonical(address: string, f: Fetched<GoogleMaps.Results>)
    requires f.Received?
    ensures var v := Normalize(ResultsSignal(f), "No results for " + address);
            && (GoogleMaps.Geocoding(address, f).status == v.status <==> f.body.status == CanonicalStatus(f.body))
            && GoogleMaps.Geocoding(address, f).error == v.error
  {
  }

  /** Google reverse geocode and search on a decoded response: success is always OK, so the
      statuses disagree exactly on an empty list whose provider status is not ZERO_RESULTS. */
  lemma GoogleListLookupsConformIffFoundOrZero(input: string, f: Fetched<GoogleMaps.Results>)
    requires f.Received?
    ensures var v := Normalize(ResultsSignal(f), "No results for " + input);
            && (GoogleMaps.ReverseGeocoding(input, f).status == v.status <==>
                  |f.body.results| > 0 || f.body.status == ZERO_RESULTS)
            && (GoogleMaps.Search(input, f).status == v.status <==>
                  |f.body.results| > 0 || f.body.status == ZERO_RESULTS)
  {
  }

  /** A Google decode failure is reported under whatever status the partial decode left,
      so it is FAILED only when that status happens to be FAILED. */
  lemma GoogleParseFailureStatus(input: string, f: Fetched<GoogleMaps.Results>)
    requires f.Malformed?
    ensures GoogleMaps.Geocoding(input, f).status == FAILED <==> f.partial.status == FAILED
    ensures GoogleMaps.ReverseGeocoding(input, f).status == FAILED <==> f.partial.status == FAILED
    ensures GoogleMaps.Search(input, f).status == FAILED <==> f.partial.status == FAILED
    ensures Normalize(ResultsSignal(f), "No results for " + input).status == FAILED
  {
  }

  /** A denied Google geocode, whatever the address and message: the status word, which is
      not in the closed vocabulary, reaches the caller unchanged, and so does the message. */
  lemma GoogleLeaksProviderStatus(address: string, message: string)
    ensures var f := Received(GoogleMaps.Results([], "REQUEST_DENIED", message));
            var r := GoogleMaps.Geocoding(address, f);
            && r.status == "REQUEST_DENIED" && !IsStatus(r.status)
            && r.error == Some(Describe(message, "No results for " + address))
  {
    assert !IsStatus("REQUEST_DENIED") by {
      assert "REQUEST_DENIED"[0] != OK[0] && "REQUEST_DENIED"[0] != MISSING_PARAMS[0] && "REQUEST_DENIED"[0] != FAILED[0];
      assert "REQUEST_DENIED"[0] != DENIED[0] && "REQUEST_DENIED"[0] != UNKNOWN[0];
      assert "REQUEST_DENIED"[0] != INVALID_DATA[0] && "REQUEST_DENIED"[0] != ZERO_RESULTS[0];
    }
  }

  /** Google route agrees with the normaliser on status whenever its polyline decodes; the
      directions response has no error message field, so an empty route list always gets
      the adapter's own text. */
  lemma GoogleRouteConforms(f: Fetched<GoogleMaps.ResponseRoute>, decode: string -> Decoding)
    requires GoogleMaps.RouteIndexable(f, decode)
    ensures var undecodable := f.Received? && |f.body.routes| > 0 && decode(f.body.routes[0].points).Undecodable?;
            var v := Normalize(SignalOf(f, (b: GoogleMaps.ResponseRoute) => |b.routes|,
                                        (b: GoogleMaps.ResponseRoute) => ""),
                               "Route for origin or destination invalid");
            && (undecodable ==> v.status == OK && GoogleMaps.Route(f, decode).status == FAILED)
            && (!undecodable ==> GoogleMaps.Route(f, decode).status == v.status &&
                                 ErrorsAgreeExceptSwallowed(f, GoogleMaps.Route(f, decode), v))
  {
  }

  /** Google distance on a decoded response agrees with the normaliser on status: for an
      empty row list exactly when the provider's status is ZERO_RESULTS, otherwise exactly
      when the first element's own status is not ZERO_RESULTS. */
  lemma GoogleDistanceConformsIffCanonical(f: Fetched<GoogleMaps.Response>)
    requires GoogleMaps.DistanceIndexable(f)
    requires f.Received?
    ensures var v := Normalize(SignalOf(f, (b: GoogleMaps.Response) => |b.rows|,
                                        (b: GoogleMaps.Response) => b.errorMessage),
                               "Distance for origin or destination invalid");
            GoogleMaps.Distance(f).status == v.status <==>
              if |f.body.rows| == 0 then f.body.status == ZERO_RESULTS
              else f.body.rows[0].elements[0].status != ZERO_RESULTS
  {
  }

  /** A failed Google request gives, in every operation, the normaliser's FAILED together
      with the transport error itself. */
  lemma GoogleTransportFailureConforms(address: string, latlng: string, err: string,
                                       decode: string -> Decoding)
    ensures var v := Normalize(TransportError(err), "");
            && GoogleMaps.Geocoding(address, TransportFailed(err)).status == v.status
            && GoogleMaps.Geocoding(address, TransportFailed(err)).error == v.error
            && GoogleMaps.ReverseGeocoding(latlng, TransportFailed(err)).status == v.status
            && GoogleMaps.ReverseGeocoding(latlng, TransportFailed(err)).error == v.error
            && GoogleMaps.Search(address, TransportFailed(err)).status == v.status
            && GoogleMaps.Search(address, TransportFailed(err)).error == v.error
            && GoogleMaps.Distance(TransportFailed(err)).status == v.status
            && GoogleMaps.Distance(TransportFailed(err)).error == v.error
            && GoogleMaps.Route(TransportFailed(err), decode).status == v.status
            && GoogleMaps.Route(TransportFailed(err), decode).error == v.error
  {
  }
}

=== FILE: controllers.dfy ===
/** The HTTP handlers (controllers/maps_controller.go) as decision procedures: each request
    body either is answered directly by a validation cascade, without consulting the
    adapter, or yields the adapter's arguments; the adapter's answer is then mapped to the
    HTTP code and the JSON reply. */
module Controllers {
  import opened Wrappers
  import opened Responses
  import opened Adapter
  import Entity
  import Text

  const StatusOK := 200
  const StatusBadRequest := 400

  /** The HTTP code written and the JSON `{status, message, data}` encoded after it. */
  datatype Reply<D> = Reply(code: int, status: string, message: string, data: Option<D>)

  /** What the JSON decoder made of the request body. */
  datatype Body<T> = Undecodable | Decoded(value: T)

  /** The outcome of validation: an immediate reply, or the arguments for the adapter. */
  datatype Step<A, D> = Respond(reply: Reply<D>) | Call(args: A)

  /** A JSON object decoded into `map[string]interface{}`, each value as `fmt.Sprint`
      renders it. A missing key and a key holding JSON null both read as nil in the
      source, so both are absent here. */
  type Fields = map<string, string>

  /** The source's emptiness test `len(strings.TrimSpace(s)) == 0`. */
  predicate Blank(s: string) {
    |Text.TrimSpace(s)| == 0
  }

  function Reject<D>(status: string, message: string): (reply: Reply<D>) {
    Reply(StatusBadRequest, status, message, None)
  }

  /** The mapping shared by all handlers once the adapter has answered: any error is a
      400 carrying the error text; no error is a 200 carrying the entity. The adapter's
      status is passed on unchanged either way. */
  function Finish<D>(o: Outcome<D>): (reply: Reply<D>)
    ensures reply.status == o.status
    ensures reply.code == StatusOK <==> o.error.None?
    ensures reply.code == StatusBadRequest <==> o.error.Some?
    ensures o.error.Some? ==> reply.message == o.error.value && reply.data.None?
    ensures o.error.None? ==> reply.message == OK_MESSAGE && reply.data == o.value
  {
    match o.error
    case Some(e) => Reply(StatusBadRequest, o.status, e, None)
    case None => Reply(StatusOK, o.status, OK_MESSAGE, o.value)
  }

  /** Runs a handler: a validation reply is final, otherwise the adapter is called once
      with the validated arguments. */
  function Handle<A, D>(step: Step<A, D>, adapter: A -> Outcome<D>): (reply: Reply<D>)
    ensures step.Respond? ==> reply == step.reply
    ensures step.Call? ==> reply == Finish(adapter(step.args))
  {
    match step
    case Respond(r) => r
    case Call(args) => Finish(adapter(args))
  }

  /** The address the geocoding handler accepts: present and not all white space. */
  predicate GeocodingValid(fields: Fields) {
    "address" in fields && !Text.AllSpace(fields["address"])
  }

  function GeocodingStep(body: Body<Fields>): (s: Step<string, Entity.Address>)
    ensures s.Call? <==> body.Decoded? && GeocodingValid(body.value)
    ensures s.Call? ==> s.args == body.value["address"]
    ensures body.Undecodable? ==> s == Respond(Reject(FAILED, FAILED_MESSAGE))
    ensures body.Decoded? && "address" !in body.value ==>
              s == Respond(Reject(MISSING_PARAMS, MISSING_PARAMS_MESSAGE))
    ensures body.Decoded? && "address" in body.value && Text.AllSpace(body.value["address"]) ==>
              s == Respond(Reject(MISSING_PARAMS, EMPTY_FIELD_MESSAGE))
  {
    match body
    case Undecodable => Respond(Reject(FAILED, FAILED_MESSAGE))
    case Decoded(fields) =>
      if "address" !in fields then Respond(Reject(MISSING_PARAMS, MISSING_PARAMS_MESSAGE))
      else if Blank(fields["address"]) then Respond(Reject(MISSING_PARAMS, EMPTY_FIELD_MESSAGE))
      else Call(fields["address"])
  }

  /** The geocoding handler: the adapter's answer decides the reply exactly for a valid
      body; every other body gets a 400 without data. */
  function Geocoding(body: Body<Fields>, adapter: string -> Outcome<Entity.Address>): (reply: Reply<Entity.Address>)
    ensures body.Decoded? && GeocodingValid(body.value) ==> reply == Finish(adapter(body.value["address"]))
    ensures !(body.Decoded? && GeocodingValid(body.value)) ==>
              reply.code == StatusBadRequest && reply.data.None? && reply.status in {FAILED, MISSING_PARAMS}
  {
    Handle(GeocodingStep(body), adapter)
  }

  /** The reverse-geocoding body decodes straight into a location (absent coordinates are
      zero), so only a decoding failure stops the adapter call. */
  function ReverseGeocodingStep(body: Body<Entity.Location>): (s: Step<Entity.Location, Entity.Address>)
    ensures s.Call? <==> body.Decoded?
    ensures s.Call? ==> s.args == body.value
    ensures s.Respond? ==> s.reply == Reject(FAILED, FAILED_MESSAGE)
  {
    match body
    case Undecodable => Respond(Reject(FAILED, FAILED_MESSAGE))
    case Decoded(location) => Call(location)
  }

  /** The reverse-geocoding handler: any decoded location is answered by the adapter. */
  function ReverseGeocoding(body: Body<Entity.Location>, adapter: Entity.Location -> Outcome<Entity.Address>): (reply: Reply<Entity.Address>)
    ensures body.Decoded? ==> reply == Finish(adapter(body.value))
    ensures body.Undecodable? ==> reply == Reply(StatusBadRequest, FAILED, FAILED_MESSAGE, None)
  {
    Handle(ReverseGeocodingStep(body), adapter)
  }

  /** A search body the handler accepts: all three keys present, both coordinates parse
      as floats and the address is not all white space. */
  predicate SearchValid(fields: Fields, parseFloat: string -> Option<real>) {
    && "address" in fields && "lat" in fields && "lng" in fields
    && parseFloat(fields["lat"]).Some?
    && parseFloat(fields["lng"]).Some?
    && !Text.AllSpace(fields["address"])
  }

  /** `parseFloat` is `strconv.ParseFloat(_, 64)`, None when it reports an error. The
      checks run in a fixed order: decoding, presence of all keys, `lat`, `lng`, and the
      address's emptiness last. */
  function SearchStep(body: Body<Fields>, parseFloat: string -> Option<real>): (s: Step<(string, Entity.Location), seq<Entity.Address>>)
    ensures s.Call? <==> body.Decoded? && SearchValid(body.value, parseFloat)
    ensures s.Call? ==>
              s.args == (body.value["address"],
                         Entity.Location(parseFloat(body.value["lat"]).value, parseFloat(body.value["lng"]).value))
    ensures body.Undecodable? ==> s == Respond(Reject(FAILED, FAILED_MESSAGE))
    ensures body.Decoded? && !("address" in body.value && "lat" in body.value && "lng" in body.value) ==>
              s == Respond(Reject(MISSING_PARAMS, MISSING_PARAMS_MESSAGE))
    ensures body.Decoded? && "address" in body.value && "lat" in body.value && "lng" in body.value ==>
              && (parseFloat(body.value["lat"]).None? ==>
                    s == Respond(Reject(INVALID_DATA, INVALID_DATA_MESSAGE + " 'lat'")))
              && (parseFloat(body.value["lat"]).Some? && parseFloat(body.value["lng"]).None? ==>
                    s == Respond(Reject(INVALID_DATA, INVALID_DATA_MESSAGE + " 'lng'")))
              && (parseFloat(body.value["lat"]).Some? && parseFloat(body.value["lng"]).Some? &&
                  Text.AllSpace(body.value["address"]) ==>
                    s == Respond(Reject(MISSING_PARAMS, EMPTY_FIELD_MESSAGE)))
  {
    match body
    case Undecodable => Respond(Reject(FAILED, FAILED_MESSAGE))
    case Decoded(fields) =>
      if "address" !in fields || "lat" !in fields || "lng" !in fields then
        Respond(Reject(MISSING_PARAMS, MISSING_PARAMS_MESSAGE))
      else match parseFloat(fields["lat"])
        case None => Respond(Reject(INVALID_DATA, INVALID_DATA_MESSAGE + " 'lat'"))
        case Some(lat) =>
          match parseFloat(fields["lng"])
          case None => Respond(Reject(INVALID_DATA, INVALID_DATA_MESSAGE + " 'lng'"))
          case Some(lng) =>
            if Blank(fields["address"]) then Respond(Reject(MISSING_PARAMS, EMPTY_FIELD_MESSAGE))
            else Call((fields["address"], Entity.Location(lat, lng)))
  }

  /** The search handler: the adapter's answer decides the reply exactly for a valid body,
      called with the address and the parsed coordinates; every other body gets a 400. */
  function Search(body: Body<Fields>, parseFloat: string -> Option<real>,
                  adapter: ((string, Entity.Location)) -> Outcome<seq<Entity.Address>>): (reply: Reply<seq<Entity.Address>>)
    ensures body.Decoded? && SearchValid(body.value, parseFloat) ==>
              reply == Finish(adapter((body.value["address"],
                                       Entity.Location(parseFloat(body.value["lat"]).value,
                                                       parseFloat(body.value["lng"]).value))))
    ensures !(body.Decoded? && SearchValid(body.value, parseFloat)) ==>
              reply.code == StatusBadRequest && reply.data.None? &&
              reply.status in {FAILED, MISSING_PARAMS, INVALID_DATA}
  {
    Handle(SearchStep(body, parseFloat), adapter)
  }

  /** The route body decodes into a map of locations; a missing key and a JSON null both
      read as a nil location in the source, so both are absent here. */
  function RouteStep(body: Body<map<string, Entity.Location>>): (s: Step<(Entity.Location, Entity.Location), Entity.Route>)
    ensures s.Call? <==> body.Decoded? && "origin" in body.value && "destination" in body.value
    ensures s.Call? ==> s.args == (body.value["origin"], body.value["destination"])
    ensures body.Undecodable? ==> s == Respond(Reject(FAILED, FAILED_MESSAGE))
    ensures body.Decoded? && !("origin" in body.value && "destination" in body.value) ==>
              s == Respond(Reject(MISSING_PARAMS, MISSING_PARAMS_MESSAGE))
  {
    match body
    case Undecodable => Respond(Reject(FAILED, FAILED_MESSAGE))
    case Decoded(points) =>
      if "origin" !in points || "destination" !in points then Respond(Reject(MISSING_PARAMS, MISSING_PARAMS_MESSAGE))
      else Call((points["origin"], points["destination"]))
  }

  /** The route handler: the adapter's answer decides the reply exactly when both
      locations are present; every other body gets a 400. */
  function Route(body: Body<map<string, Entity.Location>>,
                 adapter: ((Entity.Location, Entity.Location)) -> Outcome<Entity.Route>): (reply: Reply<Entity.Route>)
    ensures body.Decoded? && "origin" in body.value && "destination" in body.value ==>
              reply == Finish(adapter((body.value["origin"], body.value["destination"])))
    ensures !(body.Decoded? && "origin" in body.value && "destination" in body.value) ==>
              reply.code == StatusBadRequest && reply.data.None? && reply.status in {FAILED, MISSING_PARAMS}
  {
    Handle(RouteStep(body), adapter)
  }
}

=== FILE: endtoend.dfy ===
/** Handlers composed with the adapters: what a client sees for a given request body and
    upstream response. */
module EndToEnd {
  import opened Wrappers
  import opened Responses
  import opened Adapter
  import Entity
  import GoogleMaps
  import HereMaps
  import Repository
  import Controllers
  import Text

  /** A request the validation cascade answers never reaches the adapter: any two adapters
      give the same reply. */
  lemma RejectedRequestsIgnoreAdapter(
    body: Controllers.Body<Controllers.Fields>, parseFloat: string -> Option<real>,
    routeBody: Controllers.Body<map<string, Entity.Location>>,
    geocode1: string -> Outcome<Entity.Address>, geocode2: string -> Outcome<Entity.Address>,
    search1: ((string, Entity.Location)) -> Outcome<seq<Entity.Address>>,
    search2: ((string, Entity.Location)) -> Outcome<seq<Entity.Address>>,
    route1: ((Entity.Location, Entity.Location)) -> Outcome<Entity.Route>,
    route2: ((Entity.Location, Entity.Location)) -> Outcome<Entity.Route>)
    ensures Controllers.GeocodingStep(body).Respond? ==>
              Controllers.Geocoding(body, geocode1) == Controllers.Geocoding(body, geocode2)
    ensures Controllers.SearchStep(body, parseFloat).Respond? ==>
              Controllers.Search(body, parseFloat, search1) == Controllers.Search(body, parseFloat, search2)
    ensures Controllers.RouteStep(routeBody).Respond? ==>
              Controllers.Route(routeBody, route1) == Controllers.Route(routeBody, route2)
  {
  }

  /** A HERE upstream response whose body could not be read or decoded is reported to the
      client as a 200 "request sent successfully" with status FAILED and no data, because
      the adapter returns the nil transport error. */
  lemma HereSwallowedErrorLooksSuccessful(body: Controllers.Body<Controllers.Fields>, f: Fetched<HereMaps.Items>)
    requires Controllers.GeocodingStep(body).Call?
    requires f.ReadFailed? || f.Malformed?
    ensures Controllers.Geocoding(body, (a: string) => HereMaps.Geocoding(a, f)) ==
            Controllers.Reply(Controllers.StatusOK, FAILED, OK_MESSAGE, None)
  {
  }

  /** The same for a Google search, except that the status is whatever the partial decode
      left in the response, "OK" included. */
  lemma GoogleParseFailureLooksSuccessful(body: Controllers.Body<Controllers.Fields>, parseFloat: string -> Option<real>,
                                          f: Fetched<GoogleMaps.Results>)
    requires Controllers.SearchStep(body, parseFloat).Call?
    requires f.Malformed?
    ensures Controllers.Search(body, parseFloat, (q: (string, Entity.Location)) => GoogleMaps.Search(q.0, f)) ==
            Controllers.Reply(Controllers.StatusOK, f.partial.status, OK_MESSAGE, None)
  {
  }

  /** Behind the HERE adapter every geocoding reply uses the closed status vocabulary, and
      a 200 reply without data is always a swallowed FAILED. */
  lemma HereGeocodingReplies(body: Controllers.Body<Controllers.Fields>, f: Fetched<HereMaps.Items>)
    ensures var reply := Controllers.Geocoding(body, (a: string) => HereMaps.Geocoding(a, f));
            && IsStatus(reply.status)
            && (reply.status == OK <==> reply.data.Some?)
            && (reply.code == Controllers.StatusOK && reply.data.None? ==> reply.status == FAILED)
  {
  }

  /** A denied Google key reaches the client as a 400 carrying Google's own status word,
      which is outside the closed vocabulary, and Google's message verbatim. */
  lemma GoogleDeniedReachesClient(query: string, message: string)
    requires !Text.AllSpace(query)
    requires message != ""
    ensures var f := Received(GoogleMaps.Results([], "REQUEST_DENIED", message));
            var reply := Controllers.Geocoding(Controllers.Decoded(map["address" := query]),
                                               (a: string) => GoogleMaps.Geocoding(a, f));
            && reply == Controllers.Reply(Controllers.StatusBadRequest, "REQUEST_DENIED", message, None)
            && !IsStatus(reply.status)
  {
    var body := Controllers.Decoded(map["address" := query]);
    var f := Received(GoogleMaps.Results([], "REQUEST_DENIED", message));
    assert Controllers.GeocodingStep(body) == Controllers.Call(query);
    var outcome := GoogleMaps.Geocoding(query, f);
    assert outcome == Outcome("REQUEST_DENIED", None, Some(message));
    assert Controllers.Finish(outcome) == Controllers.Reply(Controllers.StatusBadRequest, "REQUEST_DENIED", message, None);
    assert !IsStatus("REQUEST_DENIED") by {
      assert "REQUEST_DENIED"[0] != OK[0] && "REQUEST_DENIED"[0] != MISSING_PARAMS[0] && "REQUEST_DENIED"[0] != FAILED[0];
      assert "REQUEST_DENIED"[0] != DENIED[0] && "REQUEST_DENIED"[0] != UNKNOWN[0];
      assert "REQUEST_DENIED"[0] != INVALID_DATA[0] && "REQUEST_DENIED"[0] != ZERO_RESULTS[0];
    }
  }

  /** A geocoding request answered by one Google result with status "OK": a 200 carrying
      a place named after the text before the first comma of the formatted address. */
  lemma GoogleGeocodingOneResult(query: string, name: string, rest: string, location: Entity.Location)
    requires !Text.AllSpace(query)
    requires ',' !in name
    ensures var address := name + "," + rest;
            var f := Received(GoogleMaps.Results([GoogleMaps.ResultItem(location, address)], OK, ""));
            Controllers.Geocoding(Controllers.Decoded(map["address" := query]), (a: string) => GoogleMaps.Geocoding(a, f)) ==
            Controllers.Reply(Controllers.StatusOK, OK, OK_MESSAGE, Some(Entity.Address(name, address, location)))
  {
    var address := name + "," + rest;
    assert Text.IsFirstField(name, address) by {
      assert address[|name|] == ',';
      assert name == address[..|name|];
    }
    Text.FirstFieldUnique(address, name);
  }

  /** An unknown provider name leaves no repository and a configuration error. */
  lemma UnknownProviderRejected(key: string, app: Repository.App)
    ensures var s := Repository.New(Repository.Configuration(Repository.Maps("unknown_provider", key), app));
            s.repo.None? && s.err == Some("invalid engine unknown_provider")
  {
    assert Repository.ERROR_PREFIX + "unknown_provider" == "invalid engine unknown_provider";
  }
}

=== FILE: entity.dfy ===
/** The domain records the adapters build and the controllers send back. Coordinates,
    durations and distances are copied around verbatim, so they are kept as opaque reals. */
module Entity {

  datatype Location = Location(lat: real, lng: real)

  /** A place as the adapters construct it: display name, formatted address, coordinates. */
  datatype Address = Address(name: string, address: string, location: Location)

  datatype Summary = Summary(duration: real, distance: real)

  /** A summary and the decoded path, in the order the decoder produced it. */
  datatype Route = Route(summary: Summary, polyline: seq<Location>)
}

=== FILE: googlemaps.dfy ===
/** The Google Maps adapter (repository/googlemaps/googlemaps.go) after the upstream call:
    how each decoded response becomes a (status, entity, error) triple. The provider's own
    status word is passed through on every decoded geocode response, on the empty-list paths
    of geocode, reverse geocode, search and distance, and, as the partial status, on the
    decode failures of the three lookups; there statuses outside the closed vocabulary reach
    the caller. Route never reads it. */
module GoogleMaps {
  import opened Wrappers
  import opened Responses
  import opened Adapter
  import Entity
  import Text

  /** The adapter holds nothing but its API key. */
  datatype GoogleMaps = GoogleMaps(apiKey: string) {
    function Provider(): (name: string) {
      "GOOGLE MAPS"
    }
  }

  function New(key: string): (adapter: GoogleMaps) {
    GoogleMaps(key)
  }

  // Decoded JSON of the geocode and text-search endpoints.
  datatype Results = Results(results: seq<ResultItem>, status: string, errorMessage: string)
  /** `geometry.location` and `formatted_address` of one result. */
  datatype ResultItem = ResultItem(location: Entity.Location, address: string)

  // Decoded JSON of the distance-matrix endpoint.
  datatype Response = Response(rows: seq<Row>, status: string, errorMessage: string)
  datatype Row = Row(elements: seq<Element>)
  datatype Element = Element(distance: real, duration: real, status: string)

  // Decoded JSON of the directions endpoint; `points` is `overview_polyline.points`.
  datatype ResponseRoute = ResponseRoute(routes: seq<RouteRecord>, status: string)
  datatype RouteRecord = RouteRecord(legs: seq<Leg>, points: string)
  datatype Leg = Leg(distance: real, duration: real)

  /** `place` was built from `item`: same address and location, and its name is the text
      of the formatted address before the first comma. */
  predicate Describes(place: Entity.Address, item: ResultItem) {
    && place.address == item.address
    && place.location == item.location
    && Text.IsFirstField(place.name, item.address)
  }

  function PlaceOf(item: ResultItem): (place: Entity.Address)
    ensures Describes(place, item)
  {
    Entity.Address(Text.FirstField(item.address), item.address, item.location)
  }

  /** The text-search loop: one place per result, in the same order. */
  function Places(items: seq<ResultItem>): (places: seq<Entity.Address>)
    ensures |places| == |items|
    ensures forall i :: 0 <= i < |items| ==> Describes(places[i], items[i])
  {
    MapEach(PlaceOf, items)
  }

  /** The error of an empty result list: the provider's message, or "No results for <input>". */
  function NoResultsError(r: Results, input: string): (message: string) {
    Describe(r.errorMessage, "No results for " + input)
  }

  function Geocoding(address: string, fetched: Fetched<Results>): (r: Outcome<Entity.Address>)
    ensures fetched.TransportFailed? ==> r == Outcome(FAILED, None, Some(fetched.err))
    // a failed body read reports the transport error, which is nil at that point
    ensures fetched.ReadFailed? ==> r == Outcome(FAILED, None, None)
    // a failed decode reports whatever status the partial decode left, and no error
    ensures fetched.Malformed? ==> r == Outcome(fetched.partial.status, None, None)
    // a decoded response always yields the provider's status word, success or not
    ensures fetched.Received? ==> r.status == fetched.body.status
    ensures r.value.Some? <==> fetched.Received? && |fetched.body.results| > 0
    ensures r.value.Some? ==> r.error.None? && Describes(r.value.value, fetched.body.results[0])
    ensures fetched.Received? && |fetched.body.results| == 0 ==>
              r.error == Some(if fetched.body.errorMessage != "" then fetched.body.errorMessage
                              else "No results for " + address)
  {
    match fetched
    case TransportFailed(e) => Outcome(FAILED, None, Some(e))
    case ReadFailed(_) => Outcome(FAILED, None, None)
    case Malformed(partial, _) => Outcome(partial.status, None, None)
    case Received(body) =>
      if |body.results| == 0 then Outcome(body.status, None, Some(NoResultsError(body, address)))
      else Outcome(body.status, Some(PlaceOf(body.results[0])), None)
  }

  /** `latlng` is the "%f,%f" rendering of the queried location. */
  function ReverseGeocoding(latlng: string, fetched: Fetched<Results>): (r: Outcome<Entity.Address>)
    ensures fetched.TransportFailed? ==> r == Outcome(FAILED, None, Some(fetched.err))
    ensures fetched.ReadFailed? ==> r == Outcome(FAILED, None, None)
    ensures fetched.Malformed? ==> r == Outcome(fetched.partial.status, None, None)
    ensures r.value.Some? <==> fetched.Received? && |fetched.body.results| > 0
    // success is reported as OK whatever the provider's status word
    ensures r.value.Some? ==> r.status == OK && r.error.None? && Describes(r.value.value, fetched.body.results[0])
    ensures fetched.Received? && |fetched.body.results| == 0 ==>
              r.status == fetched.body.status &&
              r.error == Some(if fetched.body.errorMessage != "" then fetched.body.errorMessage
                              else "No results for " + latlng)
  {
    match fetched
    case TransportFailed(e) => Outcome(FAILED, None, Some(e))
    case ReadFailed(_) => Outcome(FAILED, None, None)
    case Malformed(partial, _) => Outcome(partial.status, None, None)
    case Received(body) =>
      if |body.results| == 0 then Outcome(body.status, None, Some(NoResultsError(body, latlng)))
      else Outcome(OK, Some(PlaceOf(body.results[0])), None)
  }

  function Search(address: string, fetched: Fetched<Results>): (r: Outcome<seq<Entity.Address>>)
    ensures fetched.TransportFailed? ==> r == Outcome(FAILED, None, Some(fetched.err))
    ensures fetched.ReadFailed? ==> r == Outcome(FAILED, None, None)
    ensures fetched.Malformed? ==> r == Outcome(fetched.partial.status, None, None)
    ensures r.value.Some? <==> fetched.Received? && |fetched.body.results| > 0
    ensures r.value.Some? ==>
              && r.status == OK && r.error.None?
              && |r.value.value| == |fetched.body.results|
              && forall i :: 0 <= i < |fetched.body.results| ==> Describes(r.value.value[i], fetched.body.results[i])
    ensures fetched.Received? && |fetched.body.results| == 0 ==>
              r.status == fetched.body.status &&
              r.error == Some(if fetched.body.errorMessage != "" then fetched.body.errorMessage
                              else "No results for " + address)
  {
    match fetched
    case TransportFailed(e) => Outcome(FAILED, None, Some(e))
    case ReadFailed(_) => Outcome(FAILED, None, None)
    case Malformed(partial, _) => Outcome(partial.status, None, None)
    case Received(body) =>
      if |body.results| == 0 then Outcome(body.status, None, Some(NoResultsError(body, address)))
      else Outcome(OK, Some(Places(body.results)), None)
  }

  /** The source indexes `Elements[0]` of the first row without a check; a response that
      would make it panic is excluded. */
  predicate DistanceIndexable(fetched: Fetched<Response>) {
    fetched.Received? && |fetched.body.rows| > 0 ==> |fetched.body.rows[0].elements| > 0
  }

  function Distance(fetched: Fetched<Response>): (r: Outcome<Entity.Summary>)
    requires DistanceIndexable(fetched)
    ensures fetched.TransportFailed? ==> r == Outcome(FAILED, None, Some(fetched.err))
    // read and decode failures are both FAILED here, still with the nil transport error
    ensures fetched.ReadFailed? || fetched.Malformed? ==> r == Outcome(FAILED, None, None)
    ensures fetched.Received? && |fetched.body.rows| == 0 ==>
              r.status == fetched.body.status && r.value.None? &&
              r.error == Some(if fetched.body.errorMessage != "" then fetched.body.errorMessage
                              else "Distance for origin or destination invalid")
    ensures fetched.Received? && |fetched.body.rows| > 0 && fetched.body.rows[0].elements[0].status == ZERO_RESULTS ==>
              r == Outcome(ZERO_RESULTS, None, Some("failed to calculate distance"))
    // any other first element: OK with that element's duration and distance, and no error
    ensures fetched.Received? && |fetched.body.rows| > 0 && fetched.body.rows[0].elements[0].status != ZERO_RESULTS ==>
              var e := fetched.body.rows[0].elements[0];
              r == Outcome(OK, Some(Entity.Summary(e.duration, e.distance)), None)
    ensures r.value.Some? ==>
              && r.status == OK && fetched.Received? && |fetched.body.rows| > 0
              && var e := fetched.body.rows[0].elements[0];
                 e.status != ZERO_RESULTS && r.value.value == Entity.Summary(e.duration, e.distance) && r.error.None?
  {
    match fetched
    case TransportFailed(e) => Outcome(FAILED, None, Some(e))
    case ReadFailed(_) => Outcome(FAILED, None, None)
    case Malformed(_, _) => Outcome(FAILED, None, None)
    case Received(body) =>
      if |body.rows| == 0 then
        Outcome(body.status, None, Some(Describe(body.errorMessage, "Distance for origin or destination invalid")))
      else
        var element := body.rows[0].elements[0];
        if element.status == ZERO_RESULTS then Outcome(ZERO_RESULTS, None, Some("failed to calculate distance"))
        else Outcome(OK, Some(Entity.Summary(element.duration, element.distance)), None)
  }

  /** The source indexes `Legs[0]` of the first route once its polyline has decoded; a
      response that would make it panic is excluded. */
  predicate RouteIndexable(fetched: Fetched<ResponseRoute>, decode: string -> Decoding) {
    fetched.Received? && |fetched.body.routes| > 0 && decode(fetched.body.routes[0].points).Decoded? ==>
      |fetched.body.routes[0].legs| > 0
  }

  /** `decode` is the polyline library's decoder, applied to the first route's overview line. */
  function Route(fetched: Fetched<ResponseRoute>, decode: string -> Decoding): (r: Outcome<Entity.Route>)
    requires RouteIndexable(fetched, decode)
    ensures fetched.TransportFailed? ==> r == Outcome(FAILED, None, Some(fetched.err))
    ensures fetched.ReadFailed? || fetched.Malformed? ==> r == Outcome(FAILED, None, None)
    // no routes: ZERO_RESULTS and a fixed message, whatever the provider said
    ensures fetched.Received? && |fetched.body.routes| == 0 ==>
              r == Outcome(ZERO_RESULTS, None, Some("Route for origin or destination invalid"))
    ensures fetched.Received? && |fetched.body.routes| > 0 && decode(fetched.body.routes[0].points).Undecodable? ==>
              r == Outcome(FAILED, None, Some(decode(fetched.body.routes[0].points).err))
    // a decoded polyline: OK with a route
    ensures fetched.Received? && |fetched.body.routes| > 0 && decode(fetched.body.routes[0].points).Decoded? ==>
              r.status == OK && r.value.Some?
    ensures r.status == OK <==> r.value.Some?
    ensures r.value.Some? ==>
              && r.error.None? && fetched.Received? && |fetched.body.routes| > 0
              && var first := fetched.body.routes[0];
                 && decode(first.points).Decoded?
                 && var points := decode(first.points).points;
                    && r.value.value.summary == Entity.Summary(first.legs[0].duration, first.legs[0].distance)
                    && |r.value.value.polyline| == |points|
                    && forall i :: 0 <= i < |points| ==>
                         r.value.value.polyline[i] == Entity.Location(points[i].0, points[i].1)
  {
    match fetched
    case TransportFailed(e) => Outcome(FAILED, None, Some(e))
    case ReadFailed(_) => Outcome(FAILED, None, None)
    case Malformed(_, _) => Outcome(FAILED, None, None)
    case Received(body) =>
      if |body.routes| == 0 then Outcome(ZERO_RESULTS, None, Some("Route for origin or destination invalid"))
      else
        match decode(body.routes[0].points)
        case Undecodable(e) => Outcome(FAILED, None, Some(e))
        case Decoded(points) =>
          var leg := body.routes[0].legs[0];
          Outcome(OK, Some(Entity.Route(Entity.Summary(leg.duration, leg.distance), ToLocations(points))), None)
  }
}

=== FILE: heremaps.dfy ===
/** The HERE Maps adapter (repository/heremaps/heremaps.go) after the upstream call. Unlike
    the Google adapter it never passes a provider status word on: every empty result list
    is ZERO_RESULTS and every success is OK. */
module HereMaps {
  import opened Wrappers
  import opened Responses
  import opened Adapter
  import Entity

  /** The adapter holds nothing but its API key. */
  datatype HereMaps = HereMaps(apiKey: string) {
    function Provider(): (name: string) {
      "HERE MAPS"
    }
  }

  function New(key: string): (adapter: HereMaps) {
    HereMaps(key)
  }

  // Decoded JSON of the geocode, reverse-geocode and autosuggest endpoints.
  datatype Items = Items(items: seq<Item>, errorDescription: string)
  /** `title`, `address.label` and `position` of one item. */
  datatype Item = Item(title: string, address: AddressLabel, position: Entity.Location)
  /** The JSON `address` object; `text` is its `label` (a reserved word in Dafny). */
  datatype AddressLabel = AddressLabel(text: string)

  // Decoded JSON of the routing endpoint; `Summary.distance` is the JSON `length`.
  datatype Response = Response(routes: seq<RouteRecord>, errorDescription: string)
  datatype RouteRecord = RouteRecord(sections: seq<Section>)
  datatype Section = Section(summary: Summary, polyline: string)
  datatype Summary = Summary(duration: real, distance: real)

  /** `place` was built from `item` field by field: title, address label, position. */
  predicate Describes(place: Entity.Address, item: Item) {
    place == Entity.Address(item.title, item.address.text, item.position)
  }

  function PlaceOf(item: Item): (place: Entity.Address)
    ensures Describes(place, item)
  {
    Entity.Address(item.title, item.address.text, Entity.Location(item.position.lat, item.position.lng))
  }

  /** The autosuggest loop: one place per item, in the same order. */
  function Places(items: seq<Item>): (places: seq<Entity.Address>)
    ensures |places| == |items|
    ensures forall i :: 0 <= i < |items| ==>
              places[i] == Entity.Address(items[i].title, items[i].address.text, items[i].position)
  {
    MapEach(PlaceOf, items)
  }

  /** The one-place lookups (geocode and reverse geocode) differ only in the text that
      names the input in the "No results for" error. */
  function Lookup(input: string, fetched: Fetched<Items>): (r: Outcome<Entity.Address>)
    ensures fetched.TransportFailed? ==> r == Outcome(FAILED, None, Some(fetched.err))
    // read and decode failures report the transport error, which is nil at that point
    ensures fetched.ReadFailed? || fetched.Malformed? ==> r == Outcome(FAILED, None, None)
    ensures fetched.Received? && |fetched.body.items| == 0 ==>
              r == Outcome(ZERO_RESULTS, None,
                           Some(if fetched.body.errorDescription != "" then fetched.body.errorDescription
                                else "No results for " + input))
    // a non-empty item list: OK with a place
    ensures fetched.Received? && |fetched.body.items| > 0 ==> r.status == OK && r.value.Some?
    ensures r.status == OK <==> r.value.Some?
    ensures r.value.Some? ==>
              r.error.None? && fetched.Received? && |fetched.body.items| > 0 &&
              Describes(r.value.value, fetched.body.items[0])
  {
    match fetched
    case TransportFailed(e) => Outcome(FAILED, None, Some(e))
    case ReadFailed(_) => Outcome(FAILED, None, None)
    case Malformed(_, _) => Outcome(FAILED, None, None)
    case Received(body) =>
      if |body.items| == 0 then
        Outcome(ZERO_RESULTS, None, Some(Describe(body.errorDescription, "No results for " + input)))
      else Outcome(OK, Some(PlaceOf(body.items[0])), None)
  }

  function Geocoding(address: string, fetched: Fetched<Items>): (r: Outcome<Entity.Address>)
    ensures r.status == OK <==> fetched.Received? && |fetched.body.items| > 0
    ensures fetched.Received? && |fetched.body.items| == 0 && fetched.body.errorDescription == "" ==>
              r.error == Some("No results for " + address)
  {
    Lookup(address, fetched)
  }

  /** `latlng` is the "%f,%f" rendering of the queried location. */
  function ReverseGeocoding(latlng: string, fetched: Fetched<Items>): (r: Outcome<Entity.Address>)
    ensures r.status == OK <==> fetched.Received? && |fetched.body.items| > 0
    ensures fetched.Received? && |fetched.body.items| == 0 && fetched.body.errorDescription == "" ==>
              r.error == Some("No results for " + latlng)
  {
    Lookup(latlng, fetched)
  }

  function Search(address: string, fetched: Fetched<Items>): (r: Outcome<seq<Entity.Address>>)
    ensures fetched.TransportFailed? ==> r == Outcome(FAILED, None, Some(fetched.err))
    ensures fetched.ReadFailed? || fetched.Malformed? ==> r == Outcome(FAILED, None, None)
    ensures fetched.Received? && |fetched.body.items| == 0 ==>
              r == Outcome(ZERO_RESULTS, None,
                           Some(if fetched.body.errorDescription != "" then fetched.body.errorDescription
                                else "No results for " + address))
    // a non-empty item list: OK with the places
    ensures fetched.Received? && |fetched.body.items| > 0 ==> r.status == OK && r.value.Some?
    ensures r.status == OK <==> r.value.Some?
    ensures r.value.Some? ==>
              && r.error.None? && fetched.Received?
              && |r.value.value| == |fetched.body.items| > 0
              && forall i :: 0 <= i < |fetched.body.items| ==> Describes(r.value.value[i], fetched.body.items[i])
  {
    match fetched
    case TransportFailed(e) => Outcome(FAILED, None, Some(e))
    case ReadFailed(_) => Outcome(FAILED, None, None)
    case Malformed(_, _) => Outcome(FAILED, None, None)
    case Received(body) =>
      if |body.items| == 0 then
        Outcome(ZERO_RESULTS, None, Some(Describe(body.errorDescription, "No results for " + address)))
      else Outcome(OK, Some(Places(body.items)), None)
  }

  /** The source indexes `Sections[0]` of the first route without a check; a response that
      would make it panic is excluded. */
  predicate SectionIndexable(fetched: Fetched<Response>) {
    fetched.Received? && |fetched.body.routes| > 0 ==> |fetched.body.routes[0].sections| > 0
  }

  function Distance(fetched: Fetched<Response>): (r: Outcome<Entity.Summary>)
    requires SectionIndexable(fetched)
    ensures fetched.TransportFailed? ==> r == Outcome(FAILED, None, Some(fetched.err))
    ensures fetched.ReadFailed? || fetched.Malformed? ==> r == Outcome(FAILED, None, None)
    ensures fetched.Received? && |fetched.body.routes| == 0 ==>
              r == Outcome(ZERO_RESULTS, None,
                           Some(if fetched.body.errorDescription != "" then fetched.body.errorDescription
                                else "Distance for origin or destination invalid"))
    // a non-empty route list: OK with a summary
    ensures fetched.Received? && |fetched.body.routes| > 0 ==> r.status == OK && r.value.Some?
    ensures r.status == OK <==> r.value.Some?
    ensures r.value.Some? ==>
              && r.error.None? && fetched.Received? && |fetched.body.routes| > 0
              && var s := fetched.body.routes[0].sections[0].summary;
                 r.value.value == Entity.Summary(s.duration, s.distance)
  {
    match fetched
    case TransportFailed(e) => Outcome(FAILED, None, Some(e))
    case ReadFailed(_) => Outcome(FAILED, None, None)
    case Malformed(_, _) => Outcome(FAILED, None, None)
    case Received(body) =>
      if |body.routes| == 0 then
        Outcome(ZERO_RESULTS, None, Some(Describe(body.errorDescription, "Distance for origin or destination invalid")))
      else
        var s := body.routes[0].sections[0].summary;
        Outcome(OK, Some(Entity.Summary(s.duration, s.distance)), None)
  }

  /** `decode` is the flexible-polyline decoder, applied to the first section's polyline. */
  function Route(fetched: Fetched<Response>, decode: string -> Decoding): (r: Outcome<Entity.Route>)
    requires SectionIndexable(fetched)
    ensures fetched.TransportFailed? ==> r == Outcome(FAILED, None, Some(fetched.err))
    ensures fetched.ReadFailed? || fetched.Malformed? ==> r == Outcome(FAILED, None, None)
    ensures fetched.Received? && |fetched.body.routes| == 0 ==>
              r == Outcome(ZERO_RESULTS, None,
                           Some(if fetched.body.errorDescription != "" then fetched.body.errorDescription
                                else "Route for origin or destination invalid"))
    ensures fetched.Received? && |fetched.body.routes| > 0 &&
            decode(fetched.body.routes[0].sections[0].polyline).Undecodable? ==>
              r == Outcome(FAILED, None, Some(decode(fetched.body.routes[0].sections[0].polyline).err))
    // a decoded polyline: OK with a route
    ensures fetched.Received? && |fetched.body.routes| > 0 &&
            decode(fetched.body.routes[0].sections[0].polyline).Decoded? ==>
              r.status == OK && r.value.Some?
    ensures r.status == OK <==> r.value.Some?
    ensures r.value.Some? ==>
              && r.error.None? && fetched.Received? && |fetched.body.routes| > 0
              && var section := fetched.body.routes[0].sections[0];
                 && decode(section.polyline).Decoded?
                 && var points := decode(section.polyline).points;
                    && r.value.value.summary == Entity.Summary(section.summary.duration, section.summary.distance)
                    && |r.value.value.polyline| == |points|
                    && forall i :: 0 <= i < |points| ==>
                         r.value.value.polyline[i] == Entity.Location(points[i].0, points[i].1)
  {
    match fetched
    case TransportFailed(e) => Outcome(FAILED, None, Some(e))
    case ReadFailed(_) => Outcome(FAILED, None, None)
    case Malformed(_, _) => Outcome(FAILED, None, None)
    case Received(body) =>
      if |body.routes| == 0 then
        Outcome(ZERO_RESULTS, None, Some(Describe(body.errorDescription, "Route for origin or destination invalid")))
      else
        var section := body.routes[0].sections[0];
        match decode(section.polyline)
        case Undecodable(e) => Outcome(FAILED, None, Some(e))
        case Decoded(points) =>
          var s := section.summary;
          Outcome(OK, Some(Entity.Route(Entity.Summary(s.duration, s.distance), ToLocations(points))), None)
  }
}

=== FILE: repository.dfy ===
/** Provider selection (repository/repository.go): the configured provider name picks one of
    the two adapters, built with the configured key, or fails with a configuration error. */
module Repository {
  import opened Wrappers
  import GoogleMaps
  import HereMaps

  /** The `maps` and `app` sections of the YAML configuration. */
  datatype Maps = Maps(provider: string, apiKey: string)
  datatype App = App(port: int, debug: bool)
  datatype Configuration = Configuration(maps: Maps, app: App)

  /** The two adapters behind the common interface. */
  datatype Repository = Google(google: GoogleMaps.GoogleMaps) | Here(here: HereMaps.HereMaps) {

    function ApiKey(): (key: string) {
      match this
      case Google(g) => g.apiKey
      case Here(h) => h.apiKey
    }
  }

  /** The active adapter's display name; the two names differ, so the name identifies the
      adapter (it is used for diagnostics only, never for branching). */
  function Provider(repo: Repository): (name: string)
    ensures repo.Google? <==> name == "GOOGLE MAPS"
    ensures repo.Here? <==> name == "HERE MAPS"
  {
    match repo
    case Google(g) => g.Provider()
    case Here(h) => h.Provider()
  }

  /** The repository and the error, exactly one of which is present. */
  datatype Selection = Selection(repo: Option<Repository>, err: Option<string>)

  const ERROR_PREFIX := "invalid engine "

  function New(config: Configuration): (s: Selection)
    ensures s.repo.Some? != s.err.Some?
    ensures config.maps.provider == "google_maps" <==> s.repo == Some(Google(GoogleMaps.New(config.maps.apiKey)))
    ensures config.maps.provider == "here_maps" <==> s.repo == Some(Here(HereMaps.New(config.maps.apiKey)))
    ensures s.repo.Some? ==> s.repo.value.ApiKey() == config.maps.apiKey
    ensures s.err.Some? ==> s.err.value == ERROR_PREFIX + config.maps.provider
  {
    match config.maps.provider
    case "google_maps" => Selection(Some(Google(GoogleMaps.New(config.maps.apiKey))), None)
    case "here_maps" => Selection(Some(Here(HereMaps.New(config.maps.apiKey))), None)
    case _ => Selection(None, Some(ERROR_PREFIX + config.maps.provider))
  }

  /** Which adapter is chosen, and whether selection fails, depends on the provider name
      alone; the key and the rest of the configuration only travel along. */
  lemma SelectionDependsOnlyOnProvider(c1: Configuration, c2: Configuration)
    requires c1.maps.provider == c2.maps.provider
    ensures New(c1).err == New(c2).err
    ensures New(c1).repo.Some? <==> New(c2).repo.Some?
    ensures New(c1).repo.Some? ==> Provider(New(c1).repo.value) == Provider(New(c2).repo.value)
    ensures c1.maps.apiKey == c2.maps.apiKey ==> New(c1) == New(c2)
  {
  }

  /** The configuration error names the rejected provider verbatim: it can be read back
      from the message. */
  lemma ErrorNamesProvider(config: Configuration)
    requires New(config).err.Some?
    ensures config.maps.provider !in {"google_maps", "here_maps"}
    ensures |New(config).err.value| == |ERROR_PREFIX| + |config.maps.provider|
    ensures New(config).err.value[|ERROR_PREFIX|..] == config.maps.provider
  {
  }
}

=== FILE: responses.dfy ===
/** Status words and user-facing messages shared by the adapters and the controllers
    (responses/responses.go). */
module Responses {

  const OK := "OK"
  const MISSING_PARAMS := "MISSING_PARAMS"
  const FAILED := "FAILED"
  const DENIED := "DENIED"
  const UNKNOWN := "UNKNOWN"
  // The constant is called INVALID_DATA but its value is spelled without the N.
  const INVALID_DATA := "IVALID_DATA"
  const ZERO_RESULTS := "ZERO_RESULTS"

  const OK_MESSAGE := "request sent successfully"
  const MISSING_PARAMS_MESSAGE := "you must submit all required fields"
  const EMPTY_FIELD_MESSAGE := "you cannot send empty values"
  const FAILED_MESSAGE := "invalid format json"
  const DENIED_MESSAGE := "access denied"
  const UNKNOWN_MESSAGE := "uknowk error server"
  const INVALID_DATA_MESSAGE := "The key value is invalid"

  /** The closed status vocabulary: one of the seven status constants. */
  predicate IsStatus(s: string) {
    s in {OK, MISSING_PARAMS, FAILED, DENIED, UNKNOWN, INVALID_DATA, ZERO_RESULTS}
  }
}

=== FILE: text.dfy ===
/** The two string operations of Go's `strings` package the core relies on:
    `strings.TrimSpace` (the controllers' emptiness test) and `strings.Split(s, ",")[0]`
    (the Google adapter's place name). */
module Text {

  /** Go's `unicode.IsSpace`: the Latin-1 spaces plus the other Unicode White_Space code points. */
  predicate IsSpace(c: char) {
    || c == '\t' || c == '\n' || c == '\U{000B}' || c == '\U{000C}' || c == '\r' || c == ' '
    || c == '\U{0085}' || c == '\U{00A0}' || c == '\U{1680}'
    || ('\U{2000}' <= c <= '\U{200A}')
    || c == '\U{2028}' || c == '\U{2029}' || c == '\U{202F}' || c == '\U{205F}' || c == '\U{3000}'
  }

  /** Every character of `s` is white space (vacuously true of ""). */
  predicate AllSpace(s: string) {
    forall i :: 0 <= i < |s| ==> IsSpace(s[i])
  }

  /** Drops the leading white space: the result is the suffix of `s` after a run of spaces. */
  function TrimLeft(s: string): (r: string)
    ensures |r| <= |s| && r == s[|s| - |r|..]
    ensures AllSpace(s[..|s| - |r|])
    ensures |r| > 0 ==> !IsSpace(r[0])
  {
    if |s| > 0 && IsSpace(s[0]) then TrimLeft(s[1..]) else s
  }

  /** Drops the trailing white space: the result is the prefix of `s` before a run of spaces. */
  function TrimRight(s: string): (r: string)
    ensures |r| <= |s| && r == s[..|r|]
    ensures AllSpace(s[|r|..])
    ensures |r| > 0 ==> !IsSpace(r[|r| - 1])
  {
    if |s| > 0 && IsSpace(s[|s| - 1]) then TrimRight(s[..|s| - 1]) else s
  }

  /** Go's `strings.TrimSpace`: it is empty exactly when `s` is all white space, and
      otherwise starts and ends with a non-space character. */
  function TrimSpace(s: string): (r: string)
    ensures |r| <= |s|
    ensures |r| == 0 <==> AllSpace(s)
    ensures |r| > 0 ==> !IsSpace(r[0]) && !IsSpace(r[|r| - 1])
  {
    var left := TrimLeft(s);
    var r := TrimRight(left);
    assert |left| > 0 ==> left[0] == s[|s| - |left|];
    assert |left| == 0 ==> s[..|s|] == s;
    assert |r| == 0 ==> left[|r|..] == left;
    assert |r| > 0 ==> r[0] == left[0];
    r
  }

  /** Slicing a suffix of `s` is slicing `s` itself, shifted by where the suffix starts. */
  lemma SliceOfSuffix(s: string, i: nat, k: nat)
    requires i + k <= |s|
    ensures s[i..][..k] == s[i..i + k]
    ensures s[i..][k..] == s[i + k..]
  {
  }

  /** `r` is the slice of `s` that starts at `i`, and only white space lies around it. */
  predicate IsMiddle(r: string, s: string, i: nat) {
    && i + |r| <= |s|
    && r == s[i..i + |r|]
    && AllSpace(s[..i])
    && AllSpace(s[i + |r|..])
  }

  /** A prefix `r` of a suffix `left` of `s`, each cut off from white space only, is the
      middle slice of `s` between two runs of white space. */
  lemma MiddleOf(s: string, left: string, r: string)
    requires |left| <= |s| && left == s[|s| - |left|..] && AllSpace(s[..|s| - |left|])
    requires |r| <= |left| && r == left[..|r|] && AllSpace(left[|r|..])
    ensures IsMiddle(r, s, |s| - |left|)
  {
    SliceOfSuffix(s, |s| - |left|, |r|);
  }

  /** `strings.TrimSpace` keeps the middle of `s`: its result is the slice of `s` between a
      leading and a trailing run of white space, so nothing but white space is dropped. */
  lemma TrimSpaceKeepsMiddle(s: string)
    ensures IsMiddle(TrimSpace(s), s, |s| - |TrimLeft(s)|)
  {
    var left := TrimLeft(s);
    var r := TrimRight(left);
    assert TrimSpace(s) == r;
    MiddleOf(s, left, r);
  }

  /** `field` is the first comma-separated field of `s`: a comma-free prefix of `s` that
      stops at the first comma, or at the end of `s` when there is none. */
  predicate IsFirstField(field: string, s: string) {
    && field <= s
    && ',' !in field
    && (|field| == |s| || s[|field|] == ',')
  }

  /** Go's `strings.Split(s, ",")[0]`: the text before the first comma, the whole of `s`
      when it has no comma. */
  function FirstField(s: string): (field: string)
    ensures IsFirstField(field, s)
    ensures field == s <==> ',' !in s
  {
    if |s| == 0 || s[0] == ',' then "" else [s[0]] + FirstField(s[1..])
  }

  /** The first field is determined by the characterisation alone: no other prefix of `s`
      is comma-free and stops at a comma or at the end. */
  lemma FirstFieldUnique(s: string, p: string)
    requires IsFirstField(p, s)
    ensures p == FirstField(s)
  {
  }
}

=== FILE: wrappers.dfy ===
/** The optional value used wherever the source returns a nil pointer or a nil error. */
module Wrappers {

  datatype Option<+T> = None | Some(value: T)
}
